=== FILE: README.md ===
# aether-status: alarm classification and segment building

This project models the core of `aether-status`, a status-bar feeder that
turns host metrics (memory, first-disk space, CPU load, local date and time)
into coloured text segments and writes one line per second for a panel to
show. The model covers:

- the three-band alarm classifier and its Pango `<span foreground=…>` rendering (`Colors`);
- the `StatusData` record: its merge, emptiness test, default, and serde shape, as an abstract JSON value (`Records`);
- both builds of the metric formatters:
  - the plain-text build wired into `main.rs` (`TextMetrics`);
  - the record build that packages each metric as a `StatusData` (`RecordMetrics`);
- the date and time records with zero-padded fields (`TimeRecords`);
- the `--format` profile selection, the output line templates and the one-second interval gate of the polling loop (`App`, `Poll`).

The raw inputs are parameters:
- byte counts as `nat` (`Metrics`);
- the disk list as a sequence of (available, total) pairs in bytes (`Metrics.Disk`);
- the CPU percentage as a `real` parameter of `TextMetrics.CpuUsage` and `RecordMetrics.CpuUsage`;
- the clock as calendar components (`TimeRecords.LocalDateTime`) and as monotonic readings in nanoseconds (`Poll`).

Numbers are shown to the panel through Display formatting (`{:.1}`, `{: >4.1}`). That text arrives as an opaque string parameter. Ratios are exact `real` quotients of the GiB values. Every threshold boundary is therefore stated for the exact ratio. The source computes in `f64`, and can round across a boundary (see "## Left out").

Facts about the code that the model keeps:
- The loop is an interval gate: a record is printed once at least one second has passed since the last reset (src/main.rs:39-41, 63).
- In the `Full` line the two disk segments are joined by a space (src/main.rs:48).
- Memory exactly half used is Clear in both builds.
- The available-disk comparand of the plain build is `1 - total / available` (src/system.rs:42).
- The record build's disk-usage and CPU thresholds are kept as written (see "## Findings").

The composed output (`App.Record`, `App.Output`) uses the plain-text formatters as written, because `src/main.rs` wires exactly those.

## Model

| member | source | states |
|---|---|---|
| Colors.Classify | src/color.rs:12-20 | Red exactly when the comparand is strictly below the first threshold; Yellow exactly when it is at or above the first and strictly below the second; Clear exactly when it is at or above both, so a value on a threshold lands in the less severe band |
| Colors.NoYellowWhenNotAscending | src/color.rs:13-19 | when the first threshold is not below the second, Yellow is never produced |
| Colors.ClassifyAntitone | src/color.rs:13-19 | for any thresholds, a smaller comparand is never classified less severely than a larger one |
| Colors.SpanStart | src/color.rs:29-31 | every opening directive is `<span foreground="` plus a colour, 27 characters long |
| Colors.Colorize | src/color.rs:24-33 | the output reads back (through `Unwrap`) as exactly the level the closure assigns to the value and the original text, and is 34 characters longer than the text |
| Colors.Wrap | src/color.rs:29-31 | a coloured text is the level's 27-character opening directive, then the text, then the 7-character `</span>`, so the text is recovered by stripping both |
| Colors.Unwrap | src/color.rs:28-32 | whatever it reads back re-wraps to the very string it was read from |
| Colors.UnwrapWrap | src/color.rs:29-31 | each of the three directives reads back as its own level (`#EBDBB2` Clear, `#FAC149` Yellow, `#FB5245` Red) with the text stripped of prefix and suffix |
| Colors.WrapInjective | src/color.rs:28-32 | two coloured texts are equal exactly when both the texts and the levels are, so different levels always give different outputs |
| Colors.WrapChars | src/color.rs:29-31 | the directives add no character outside their own alphabet; in particular no line break |
| Colors.ColorizeRange | src/color.rs:11-21 | `colorize_range` is `colorize` with the band classifier: its output reads back as the band of the value and the text |
| Colors.ColorizeRangeByBand | src/color.rs:11-21 | two values give the same output exactly when they fall in the same band |
| Metrics.Gib | src/system.rs:13-14 | a byte count in GiB is non-negative, zero only for zero bytes, and times 1 073 741 824 gives the bytes back |
| Metrics.GibRatio | src/system.rs:13-15 | the quotient of two GiB values equals the quotient of the byte counts |
| Records.StatusData.AttachRight | src/status.rs:23-26 | the merged name splits into the left name, `_`, the right name; the merged text splits into the left text, the separator, the right text; colour and markup stay the left record's |
| Records.AttachRightAssociative | src/status.rs:23-26 | two successive merges with one separator give the same record whichever pair is merged first |
| Records.AttachRightNotCommutative | src/status.rs:23-26 | the merge is not commutative: some pair of records gives a different merge when swapped |
| Records.AttachRightNotEmpty | src/status.rs:23-30 | a merged record is never empty |
| Records.StatusData.IsEmpty | src/status.rs:28-30 | a record is empty exactly when it is the default up to colour and markup, i.e. both name and text are empty |
| Records.IsEmptyExactly | src/status.rs:28-30 | a record is empty exactly when both name and text are empty; one empty field is not enough |
| Records.Default | src/status.rs:33-42 | the default record is empty, has no colour and Pango markup |
| Records.NewStatus | src/status.rs:8-10 | a new `Status` holds no records |
| Records.MarkupName | src/status.rs:44-50 | markup serialises to `"none"` or `"pango"` |
| Records.ParseMarkup | src/status.rs:44-50 | exactly the strings `"none"` and `"pango"` read back, each to the markup that serialises to it |
| Records.ToJson | src/status.rs:13-20 | the object has keys `name`, `markup`, `full_text`, plus `color` exactly when the colour is present, each holding the field's value |
| Records.FromToJson | src/status.rs:13-20 | every record reads back unchanged from its JSON object |
| Records.ToJsonInjective | src/status.rs:13-20 | two records serialise alike exactly when they are equal |
| Records.DataJson | src/status.rs:3-4 | the serialised sequence has one object per record, in order |
| Records.StatusJson | src/status.rs:1-5 | `Status` is transparent: a bare array holding each record's object at the record's position |
| Records.DataFromDataJson | src/status.rs:3-4 | a serialised sequence of records reads back unchanged |
| Records.StatusRoundTrip | src/status.rs:1-10 | a `Status` reads back from its array; a new `Status` is the empty array |
| TextMetrics.Above | src/system.rs:18-24 | the plain-build closures: Red exactly when the comparand is strictly above the upper threshold, Yellow exactly when strictly above the lower and at most the upper, Clear exactly when at most both |
| TextMetrics.AboveIsClassify | src/system.rs:18-24 | every `>` closure of the plain build is the shared band classifier applied to the negated comparand and negated thresholds |
| TextMetrics.MemoryUsage | src/system.rs:10-28 | with ratio used/total, the text is Red exactly when the ratio is above 0.8, Yellow exactly when in (0.5, 0.8], Clear exactly when at most 0.5 |
| TextMetrics.ThresholdExamples | src/system.rs:17-25 | memory exactly half used is Clear and exactly 80% used is Yellow; CPU at exactly 50 is Clear, at 80 Yellow, at 85.3 Red |
| TextMetrics.AvailableDiskTotal | src/system.rs:32-55 | no segment exactly when the disk list is empty; otherwise the first disk's text, Red exactly when `1 - total/available` is above 0.9, Yellow exactly when in (0.7, 0.9], Clear otherwise |
| TextMetrics.AvailableDiskNeverAlarms | src/system.rs:40-52 | for any disk with some space available and no more than its total, the segment is always Clear |
| TextMetrics.AvailableDiskCounterexample | src/system.rs:40-52 | a disk 95% used shows Clear in the available segment while `disk_usage` shows it Red |
| TextMetrics.AvailableDiskTotalIntended | src/system.rs:30-52 | with the used ratio `1 - available/total` the doc comment describes: Red exactly when less than 10% of the disk is available, Yellow exactly when 10% to under 30% is, Clear otherwise; no segment for an empty list |
| TextMetrics.DiskUsage | src/system.rs:59-82 | no segment exactly when the disk list is empty; otherwise Red exactly when the used ratio `1 - available/total` is above 0.9, Yellow exactly when in (0.7, 0.9], Clear otherwise |
| TextMetrics.OnlyFirstDisk | src/system.rs:34-42 | disks after the first never change either disk segment |
| TextMetrics.CpuUsage | src/system.rs:86-104 | Red exactly above 80, Yellow exactly in (50, 80], Clear exactly at or below 50 |
| RecordMetrics.MemoryUsage | src/values/system.rs:13-30 | named `memory_usage`, no colour field, Pango markup; Red exactly when the used ratio is above 0.8, Yellow exactly in (0.5, 0.8], Clear exactly at or below 0.5; the text reads back unchanged |
| RecordMetrics.MemoryBuildsAgree | src/values/system.rs:24-28 | for every input the record build's memory text equals the plain build's, colour included |
| RecordMetrics.AvailableDiskTotal | src/values/system.rs:34-56 | no record exactly for an empty disk list; otherwise named `available_disk_total`, Red exactly when available/total is below 0.1, Yellow exactly in [0.1, 0.3), Clear exactly from 0.3 |
| RecordMetrics.AvailableDiskBuildsAgree | src/values/system.rs:44-54 | for every disk the record build's available record has the colour of the corrected plain-text available segment |
| RecordMetrics.DiskUsage | src/values/system.rs:60-82 | no record exactly for an empty disk list; otherwise named `available_disk_total`, Red exactly when `100 - available/total` is below 90, and never Yellow |
| RecordMetrics.DiskUsageNeverAlarms | src/values/system.rs:68-80 | for any disk whose available space is at most its total, the record is always Clear |
| RecordMetrics.DiskNamesCollide | src/values/system.rs:46-73 | both disk records carry the same name |
| RecordMetrics.DiskUsageCounterexample | src/values/system.rs:68-80 | a disk 95% used is Clear as written and Red under the intended reading |
| RecordMetrics.DiskUsageIntended | src/values/system.rs:58-59 | with used percentage `100 * (1 - available/total)`: named `disk_usage`, Red exactly above 90, Yellow exactly in (70, 90], Clear otherwise |
| RecordMetrics.DiskUsageIntendedAgrees | src/values/system.rs:58-82 | the corrected record has the same colour as the plain build's `disk_usage` for every disk |
| RecordMetrics.CpuUsage | src/values/system.rs:86-96 | named `cpu_usage`; Red exactly when the percentage is below 0.1, Yellow exactly in [0.1, 0.3), Clear from 0.3 |
| RecordMetrics.CpuCounterexample | src/values/system.rs:94 | an idle CPU (0%) is Red in the record build and Clear in the plain build and in the corrected record |
| RecordMetrics.CpuUsageIntended | src/values/system.rs:84-85 | with comparand `100 - usage`: Red exactly above 80, Yellow exactly in (50, 80], Clear at or below 50 |
| RecordMetrics.CpuUsageIntendedAgrees | src/values/system.rs:84-96 | the corrected CPU record's text equals the plain build's for every percentage |
| TimeRecords.Pad | src/values/time.rs:13 | a number below 10^width becomes exactly `width` digits whose decimal value is the number |
| TimeRecords.TimeText | src/values/time.rs:13 | `%H:%M:%S` is 8 characters, colons at 2 and 5, digits elsewhere, and the three fields read back as hour, minute and second |
| TimeRecords.DateText | src/values/time.rs:25 | `%Y-%m-%d` is 10 characters, dashes at 4 and 7, digits elsewhere, and the fields read back as a four-digit year, month and day |
| TimeRecords.TimeTextInjective | src/values/time.rs:13 | two instants share a time text exactly when hour, minute and second agree |
| TimeRecords.DateTextInjective | src/values/time.rs:25 | two instants share a date text exactly when year, month and day agree |
| TimeRecords.TimeLocal | src/values/time.rs:6-15 | named `time_local`, no colour, Pango markup, text the `HH:MM:SS` rendering |
| TimeRecords.DateLocal | src/values/time.rs:18-27 | named `date_local`, no colour, Pango markup, text the `YYYY-MM-DD` rendering |
| TimeRecords.DatetimeLocal | src/values/time.rs:30-44 | named `datetime_local`; its text is the date record's text, one space, the time record's text, 19 characters in all |
| TimeRecords.DatetimeSplits | src/values/time.rs:38-42 | the combined text splits back at position 10 into the date and the time |
| Poll.Due | src/main.rs:39-41 | a poll emits exactly when at least one full second has passed since `last_check` |
| Poll.InitialLastCheck | src/main.rs:30-32 | `last_check` starts two seconds before the start, or at the fallback reading when the clock cannot go back that far |
| Poll.FirstPollEmits | src/main.rs:30-41 | once the clock has run two seconds, the first poll emits |
| Poll.EmitTimes | src/main.rs:36-64 | the readings at which the loop prints: no more of them than polls, and each is the reading of one of the polls |
| Poll.EmitTimesBounds | src/main.rs:36-64 | every emission comes at least a second after the initial `last_check` |
| Poll.EmissionsSpaced | src/main.rs:36-64 | with `last_check` reset after each emission, successive emissions are at least a second apart |
| Poll.NothingEmittedIff | src/main.rs:39-41 | a run prints nothing exactly when none of its polls comes a full second after the initial `last_check` |
| Poll.FirstEmissionIsFirstDue | src/main.rs:36-64 | the emissions of a run are the reading of its first due poll followed by the emissions from that poll's reset reading over the polls after it; with `Poll.NothingEmittedIff` this fixes the emissions of every run, so after each reset the next due poll is printed |
| Poll.FirstPollPrinted | src/main.rs:30-41 | once the clock has run two seconds, the first poll of a run is printed, at its own reading |
| App.Select | src/main.rs:67-80 | `primary` runs `Full`, `non-primary` runs `DateAndTime`; any other value prints the usage error line and never runs |
| App.SelectInverts | src/main.rs:16-17 | each profile is selected by exactly one argument, and the default argument selects `Full` |
| Wrappers.Option.UnwrapOr | src/main.rs:49-50 | `unwrap_or` gives the contained value when there is one and the default otherwise |
| App.FullLine | src/main.rs:47-55 | the `Full` line is a newline, then the disk pair, CPU, memory and date-and-time joined by a bar with a space on each side; a missing disk segment reads `N/A`; when no segment holds a line break, the leading newline is the only one |
| App.DateTimeLine | src/main.rs:58 | the `DateAndTime` line is a newline, the date, one space, the time, and each reads back at its position |
| App.FullRecord | src/main.rs:46-56 | the `Full` record places the plain-build segments and the clock texts on the `Full` template |
| App.FullLineMissingDisks | src/main.rs:49-50 | with both disk segments missing, the `Full` line opens with `\nN/A N/A` |
| App.FullRecordMissingDisks | src/main.rs:49-50 | with an empty disk list the record begins `\nN/A N/A` |
| App.FullRecordSingleLine | src/main.rs:47-55 | the `Full` record begins with its only line break when no pre-formatted text holds one |
| App.Record | src/main.rs:45-60 | for either profile the record begins with its only line break when no pre-formatted text holds one |
| App.RecordLine | src/main.rs:45-60 | when no pre-formatted text holds a line break, each record holds exactly one line break, at its start |
| App.Output | src/main.rs:36-64 | the text printed over a run of polls is empty exactly when the gate let no poll through, and otherwise starts with a line break |
| App.OutputLines | src/main.rs:36-64 | when no pre-formatted text holds a line break, the printed text holds exactly one line break per poll the gate let through, and starts with one |
| App.OutputOpensWithFirstDue | src/main.rs:36-64 | the printed text is the record of the first poll at which a full second has passed since `last_check`, followed by the text printed from that poll's reset reading over the polls after it; the polls before it print nothing |

## Left out

- Operating-system queries (`refresh_memory`, `refresh_cpu_usage`, `Disks::refresh`, `available_space`, `total_space`): foreign calls. Their results are parameters. Both disk segments of one line see the same disk list, although the source refreshes it between the two calls.
- `global_cpu_usage` is read twice in `src/system.rs:90-91`. The model uses one value for both readings.
- Display formatting of numbers (`{:.1}`, `{: >4.1}`) and `f64`/`f32` rounding: each pre-formatted text is an opaque parameter, and ratios are exact reals.
- RecordMetrics.MemoryUsage: the Red and Yellow boundaries hold for the exact ratio only. At exactly 80% used (4 of 5 GiB) the source computes `1.0 - 0.8` in `f64` as 0.19999999999999996, which is below 0.2, so it shows Red. The contract says Yellow. Floating point is not modelled.
- RecordMetrics.MemoryBuildsAgree: the two builds agree for every exact ratio, not for every `f64` ratio. At exactly 80% used the record build shows Red (`1.0 - 0.8 < 0.2` in `f64`) while the plain build shows Yellow (`0.8 > 0.8` is false).
- TextMetrics.MemoryUsage: requires a non-zero total. The source divides by zero there, which IEEE-754 arithmetic turns into NaN or infinity. Floating point is not modelled.
- TextMetrics.AvailableDiskTotal: requires the first disk's available space to be non-zero, for the same reason.
- RecordMetrics.MemoryUsage, RecordMetrics.AvailableDiskTotal, RecordMetrics.DiskUsage and TextMetrics.DiskUsage: require a non-zero total, for the same reason.
- TimeRecords.DateText: only years 0 to 9999 are modelled. The clock library writes other years with a sign. Leap-second rendering (`:60`) is not modelled either.
- Clock and timezone resolution (`Local::now`, `date_naive`, `time`): the calendar components are parameters.
- `src/time.rs` repeats the `%H:%M:%S` and `%Y-%m-%d` formats of `src/values/time.rs`. Its two functions are `TimeRecords.TimeText` and `TimeRecords.DateText`, which `App` uses.
- Runtime plumbing: the endless loop, the 10 ms sleep, printing, `clap` parsing and `Instant`. Only the gate decision, the line templates and the text printed over a finite run of polls are modelled.
- JSON byte-level encoding and string escaping: serialisation is an abstract key-to-value value.
- The `{"version":1}` header and the comma-prefixed array stream: nothing in the source writes them.
- The unit tests only print live system values and assert nothing.

## Findings

| source | as written | input that shows it | evidently intended | confidence | as-written member | corrected member |
|---|---|---|---|---|---|---|
| src/system.rs:42 | used ratio `1.0 - total / available` | first disk with 5 of its 100 GiB available (95% used): comparand is -19, so the segment is Clear | `1.0 - available / total`: Red above 90% used, as the doc comment on line 31 says | not executed; high | TextMetrics.AvailableDiskCounterexample | TextMetrics.AvailableDiskTotalIntended |
| src/values/system.rs:70-79 | comparand `100.0 - available / total` against `(90.0, 50.0)` | first disk with 5 of its 100 GiB available (95% used): comparand 99.95, so the record is Clear; no input ever gives Yellow | used percentage against Red above 90 and Yellow above 70, as the doc comment on line 59 says | not executed; high | RecordMetrics.DiskUsageCounterexample | RecordMetrics.DiskUsageIntended |
| src/values/system.rs:94 | the CPU percentage itself against `(0.1, 0.3)` | 0% CPU: the record is Red, while the plain build shows Clear | Red above 80% and Yellow above 50%, as in `src/system.rs:93-96` | not executed; high | RecordMetrics.CpuCounterexample | RecordMetrics.CpuUsageIntended |

=== FILE: app.dfy ===
/**
 * The program's entry point and loop body: choosing the output profile
 * from the `--format` argument, composing one output record from the
 * plain-text segments, and the text the loop prints over a run of polls.
 * Argument parsing, printing, sleeping and the clock are not modelled.
 */
module App {
  import opened Wrappers
  import opened Colors
  import opened Metrics
  import TextMetrics
  import TimeRecords
  import Poll

  /** The output profile, fixed for the life of the process. */
  datatype Format = Full | DateAndTime

  /** The value `--format` takes when it is not given. */
  const DefaultFormatArg: string := "primary"

  /** The line printed for an unrecognised `--format` value. */
  const UsageMessage: string := "error: invalid usage: use the '--help' option to get more information"

  /** What `main` does: run the loop with a profile, or print the usage error and return. */
  datatype Launch = Run(format: Format) | Usage(output: string)

  /** `main`: `primary` selects `Full`, `non-primary` selects `DateAndTime`, anything else stops. */
  function Select(arg: string): (l: Launch)
    ensures l == Run(Full) <==> arg == "primary"
    ensures l == Run(DateAndTime) <==> arg == "non-primary"
    ensures l.Usage? <==> arg != "primary" && arg != "non-primary"
    ensures l.Usage? ==> l.output == UsageMessage + "\n"
  {
    match arg
    case "primary" => Run(Full)
    case "non-primary" => Run(DateAndTime)
    case _ => Usage(UsageMessage + "\n")
  }

  /** The argument that selects a profile. */
  function FormatArg(f: Format): string
  {
    match f
    case Full => "primary"
    case DateAndTime => "non-primary"
  }

  /**
   * Every profile has exactly one argument selecting it, and with no
   * argument the `Full` profile runs.
   */
  lemma SelectInverts(f: Format, arg: string)
    ensures Select(FormatArg(f)) == Run(f)
    ensures Select(arg) == Run(f) ==> arg == FormatArg(f)
    ensures Select(DefaultFormatArg) == Run(Full)
  {
  }

  /** A reference definition of joining parts with a separator. */
  function Join(parts: seq<string>, separator: string): string
  {
    if |parts| == 0 then ""
    else if |parts| == 1 then parts[0]
    else parts[0] + separator + Join(parts[1..], separator)
  }

  /**
   * The `Full` record: a newline, the two disk segments (each `N/A` when
   * missing) joined by a space, then CPU, memory and date-and-time joined
   * by ` | `. It is the only line break in the record when no segment
   * holds one.
   */
  function FullLine(avail: Option<string>, usage: Option<string>, cpu: string, mem: string,
                    date: string, time: string): (line: string)
    ensures line == "\n" + Join([avail.UnwrapOr("N/A") + " " + usage.UnwrapOr("N/A"), cpu, mem,
                                 date + " " + time], " | ")
    ensures line[0] == '\n'
    ensures var a := avail.UnwrapOr("N/A");
      && |line| > 5 + |a|
      && line[1..1 + |a|] == a && line[1 + |a|] == ' '
      && (usage.None? ==> line[2 + |a|..5 + |a|] == "N/A")
    ensures ('\n' !in avail.UnwrapOr("") && '\n' !in usage.UnwrapOr("") && '\n' !in cpu
             && '\n' !in mem && '\n' !in date && '\n' !in time)
        ==> line[0] == '\n' && '\n' !in line[1..]
  {
    var a, u := avail.UnwrapOr("N/A"), usage.UnwrapOr("N/A");
    var tail := " | " + cpu + " | " + mem + " | " + date + " " + time;
    var body := a + " " + u + tail;
    assert body[..|a|] == a;
    assert body[|a|] == ' ';
    assert usage.None? ==> body[1 + |a|..4 + |a|] == "N/A" by {
      assert body == (a + " ") + u + tail;
    }
    ghost var disk := a + " " + u;
    ghost var dt := date + " " + time;
    assert Join([disk, cpu, mem, dt], " | ") == body by {
      assert [disk, cpu, mem, dt][1..] == [cpu, mem, dt];
      assert [cpu, mem, dt][1..] == [mem, dt];
      assert [mem, dt][1..] == [dt];
      assert Join([dt], " | ") == dt;
      assert Join([mem, dt], " | ") == mem + " | " + dt;
      assert Join([cpu, mem, dt], " | ") == cpu + " | " + (mem + " | " + dt);
    }
    var line := "\n" + body;
    assert line[1..] == body;
    line
  }

  /**
   * The `DateAndTime` record: a newline, then the date and the time joined
   * by one space; the date and time read back from it.
   */
  function DateTimeLine(date: string, time: string): (line: string)
    ensures |line| == |date| + |time| + 2
    ensures line[0] == '\n' && line[1..1 + |date|] == date
    ensures line[1 + |date|] == ' ' && line[2 + |date|..] == time
    ensures '\n' !in date && '\n' !in time ==> '\n' !in line[1..]
  {
    var line := "\n" + date + " " + time;
    assert line[1..] == date + " " + time;
    line
  }

  /** One poll's inputs: the raw metrics, the instant, and the pre-formatted texts. */
  datatype Sample = Sample(disks: seq<Disk>, memUsed: nat, memTotal: nat, cpu: real,
                           now: TimeRecords.LocalDateTime,
                           availText: string, usageText: string, cpuText: string, memText: string)
  {
    predicate Valid()
    {
      && memTotal > 0
      && (|disks| > 0 ==> disks[0].available > 0 && disks[0].total > 0)
      && now.Valid()
    }

    predicate SingleLineTexts()
    {
      '\n' !in availText && '\n' !in usageText && '\n' !in cpuText && '\n' !in memText
    }
  }

  /** A segment coloured by any level holds no line break when its text holds none. */
  lemma ColouredSingleLine(text: string, r: string)
    requires '\n' !in text
    requires r == Wrap(text, Red) || r == Wrap(text, Yellow) || r == Wrap(text, Clear)
    ensures '\n' !in r
  {
    WrapChars(text, Red, '\n');
    WrapChars(text, Yellow, '\n');
    WrapChars(text, Clear, '\n');
  }

  /** Date and time texts hold only digits and separators. */
  lemma ClockTextsSingleLine(t: TimeRecords.LocalDateTime)
    requires t.Valid()
    ensures '\n' !in TimeRecords.DateText(t) && '\n' !in TimeRecords.TimeText(t)
  {
  }

  /** The coloured segments of a sample hold no line break when its texts hold none. */
  lemma SegmentsSingleLine(s: Sample)
    requires s.Valid()
    ensures s.SingleLineTexts() ==>
      && '\n' !in TextMetrics.AvailableDiskTotal(s.disks, s.availText).UnwrapOr("")
      && '\n' !in TextMetrics.DiskUsage(s.disks, s.usageText).UnwrapOr("")
      && '\n' !in TextMetrics.CpuUsage(s.cpu, s.cpuText)
      && '\n' !in TextMetrics.MemoryUsage(s.memUsed, s.memTotal, s.memText)
  {
    if s.SingleLineTexts() {
      var avail := TextMetrics.AvailableDiskTotal(s.disks, s.availText);
      var usage := TextMetrics.DiskUsage(s.disks, s.usageText);
      if avail.Some? { ColouredSingleLine(s.availText, avail.value); }
      if usage.Some? { ColouredSingleLine(s.usageText, usage.value); }
      ColouredSingleLine(s.cpuText, TextMetrics.CpuUsage(s.cpu, s.cpuText));
      ColouredSingleLine(s.memText, TextMetrics.MemoryUsage(s.memUsed, s.memTotal, s.memText));
    }
  }

  /** The `Full` record of one sample: the four plain-text segments and the clock texts. */
  function FullRecord(s: Sample): (line: string)
    requires s.Valid()
    ensures line == FullLine(TextMetrics.AvailableDiskTotal(s.disks, s.availText),
                             TextMetrics.DiskUsage(s.disks, s.usageText),
                             TextMetrics.CpuUsage(s.cpu, s.cpuText),
                             TextMetrics.MemoryUsage(s.memUsed, s.memTotal, s.memText),
                             TimeRecords.DateText(s.now), TimeRecords.TimeText(s.now))
  {
    var avail := TextMetrics.AvailableDiskTotal(s.disks, s.availText);
    var usage := TextMetrics.DiskUsage(s.disks, s.usageText);
    var line := FullLine(avail, usage, TextMetrics.CpuUsage(s.cpu, s.cpuText),
                         TextMetrics.MemoryUsage(s.memUsed, s.memTotal, s.memText),
                         TimeRecords.DateText(s.now), TimeRecords.TimeText(s.now));
    line
  }

  /** Without disk segments the `Full` line opens with two `N/A` fallbacks. */
  lemma FullLineMissingDisks(cpu: string, mem: string, date: string, time: string)
    ensures FullLine(None, None, cpu, mem, date, time)[..8] == "\nN/A N/A"
  {
    var line := FullLine(None, None, cpu, mem, date, time);
    assert line[1..4] == "N/A" && line[4] == ' ' && line[5..8] == "N/A";
  }

  /** With an empty disk list both disk segments read `N/A`. */
  lemma FullRecordMissingDisks(s: Sample)
    requires s.Valid() && |s.disks| == 0
    ensures FullRecord(s)[..8] == "\nN/A N/A"
  {
    var avail := TextMetrics.AvailableDiskTotal(s.disks, s.availText);
    var usage := TextMetrics.DiskUsage(s.disks, s.usageText);
    assert avail == None && usage == None;
    FullLineMissingDisks(TextMetrics.CpuUsage(s.cpu, s.cpuText),
                         TextMetrics.MemoryUsage(s.memUsed, s.memTotal, s.memText),
                         TimeRecords.DateText(s.now), TimeRecords.TimeText(s.now));
  }

  /** A `Full` record begins with its only line break when no text holds one. */
  lemma FullRecordSingleLine(s: Sample)
    requires s.Valid()
    ensures s.SingleLineTexts() ==> FullRecord(s)[0] == '\n' && '\n' !in FullRecord(s)[1..]
  {
    ClockTextsSingleLine(s.now);
    SegmentsSingleLine(s);
  }

  /**
   * The record `run` prints for one poll, by profile. A record begins with
   * its only line break when no pre-formatted text holds one.
   */
  function Record(f: Format, s: Sample): (line: string)
    requires s.Valid()
    ensures f == DateAndTime ==>
      line == DateTimeLine(TimeRecords.DateText(s.now), TimeRecords.TimeText(s.now))
    ensures |line| > 0 && line[0] == '\n'
    ensures s.SingleLineTexts() ==> '\n' !in line[1..]
  {
    ClockTextsSingleLine(s.now);
    FullRecordSingleLine(s);
    match f
    case Full => FullRecord(s)
    case DateAndTime => DateTimeLine(TimeRecords.DateText(s.now), TimeRecords.TimeText(s.now))
  }

  /** One iteration of the loop: its clock readings and what it would sample. */
  datatype Iteration = Iteration(tick: Poll.Tick, sample: Sample)

  function Ticks(its: seq<Iteration>): (ts: seq<Poll.Tick>)
    ensures |ts| == |its|
    ensures forall i :: 0 <= i < |its| ==> ts[i] == its[i].tick
  {
    if |its| == 0 then [] else [its[0].tick] + Ticks(its[1..])
  }

  /**
   * What the loop prints over a run of iterations: the record of every
   * iteration the gate lets through, `last_check` being reset after each.
   */
  function Output(f: Format, last: nat, its: seq<Iteration>): (o: string)
    requires forall i :: 0 <= i < |its| ==> its[i].sample.Valid()
    ensures |o| == 0 <==> |Poll.EmitTimes(last, Ticks(its))| == 0
    ensures |o| > 0 ==> o[0] == '\n'
    decreases |its|
  {
    assert |its| > 0 ==> Ticks(its)[1..] == Ticks(its[1..]);
    if |its| == 0 then ""
    else if Poll.Due(last, its[0].tick.check) then
      Record(f, its[0].sample) + Output(f, its[0].tick.reset, its[1..])
    else Output(f, last, its[1..])
  }

  /** The number of occurrences of `c` in `s`. */
  function Count(s: string, c: char): nat
  {
    if |s| == 0 then 0 else (if s[0] == c then 1 else 0) + Count(s[1..], c)
  }

  lemma {:induction false} CountConcat(a: string, b: string, c: char)
    ensures Count(a + b, c) == Count(a, c) + Count(b, c)
  {
    if |a| == 0 {
      assert a + b == b;
    } else {
      assert (a + b)[0] == a[0];
      assert (a + b)[1..] == a[1..] + b;
      CountConcat(a[1..], b, c);
    }
  }

  lemma {:induction false} CountAbsent(s: string, c: char)
    requires c !in s
    ensures Count(s, c) == 0
  {
    if |s| > 0 {
      assert c !in s[1..];
      CountAbsent(s[1..], c);
    }
  }

  /** A record holds exactly one line break, at its start. */
  lemma RecordLine(f: Format, s: Sample)
    requires s.Valid() && s.SingleLineTexts()
    ensures Count(Record(f, s), '\n') == 1 && Record(f, s)[0] == '\n'
  {
    var r := Record(f, s);
    assert r == [r[0]] + r[1..];
    CountConcat([r[0]], r[1..], '\n');
    CountAbsent(r[1..], '\n');
  }

  /**
   * The printed text holds exactly one line break per record the gate let
   * through, each record opening with it, when no pre-formatted text holds
   * a line break.
   */
  lemma {:induction false} OutputLines(f: Format, last: nat, its: seq<Iteration>)
    requires forall i :: 0 <= i < |its| ==> its[i].sample.Valid() && its[i].sample.SingleLineTexts()
    ensures Count(Output(f, last, its), '\n') == |Poll.EmitTimes(last, Ticks(its))|
    ensures |Output(f, last, its)| > 0 ==> Output(f, last, its)[0] == '\n'
    decreases |its|
  {
    if |its| > 0 {
      var ts := Ticks(its);
      assert ts[1..] == Ticks(its[1..]);
      if Poll.Due(last, its[0].tick.check) {
        var r := Record(f, its[0].sample);
        OutputLines(f, its[0].tick.reset, its[1..]);
        CountConcat(r, Output(f, its[0].tick.reset, its[1..]), '\n');
        RecordLine(f, its[0].sample);
      } else {
        OutputLines(f, last, its[1..]);
      }
    }
  }

  /**
   * The printed text is the record of the first poll the gate lets through,
   * then the text printed from its reset reading over the polls after it:
   * skipped polls print nothing, and after every reset the next due poll is
   * printed.
   */
  lemma {:induction false} OutputOpensWithFirstDue(f: Format, last: nat, its: seq<Iteration>, i: nat)
    requires forall j :: 0 <= j < |its| ==> its[j].sample.Valid()
    requires i < |its| && Poll.Due(last, its[i].tick.check)
    requires forall j :: 0 <= j < i ==> !Poll.Due(last, its[j].tick.check)
    ensures Record(f, its[i].sample) <= Output(f, last, its)
    ensures Output(f, last, its) == Record(f, its[i].sample) + Output(f, its[i].tick.reset, its[i + 1..])
    decreases i
  {
    if i > 0 {
      OutputOpensWithFirstDue(f, last, its[1..], i - 1);
      assert its[1..][i - 1 + 1..] == its[i + 1..];
    }
  }
}

=== FILE: colors.dfy ===
/**
 * The alarm colorizer: a three-band classifier and the Pango markup that
 * wraps a text in the colour of its band.
 */
module Colors {
  import opened Wrappers

  /** The alarm level of a metric; `Red` is the worst. */
  datatype Level = Clear | Yellow | Red

  /** Rank of a level: a larger rank is more alarming. */
  function Severity(l: Level): nat
  {
    match l
    case Clear => 0
    case Yellow => 1
    case Red => 2
  }

  /** The closing Pango directive. */
  const SpanEnd: string := "</span>"

  /** The opening Pango directive for each level, with its fixed foreground colour. */
  function SpanStart(l: Level): (p: string)
    ensures |p| == 27
    ensures p[..18] == "<span foreground=\""
  {
    match l
    case Clear => "<span foreground=\"#EBDBB2\">"
    case Yellow => "<span foreground=\"#FAC149\">"
    case Red => "<span foreground=\"#FB5245\">"
  }

  /** `s` shown in the colour of level `l`. */
  function Wrap(s: string, l: Level): (r: string)
    ensures |r| == |s| + 34
    ensures r[..27] == SpanStart(l) && r[27..|r| - 7] == s && r[|r| - 7..] == SpanEnd
  {
    SpanStart(l) + s + SpanEnd
  }

  /**
   * Reads a coloured text back: the level its directive names and the text
   * between the directives, or `None` when `t` is not one of the three spans.
   */
  function Unwrap(t: string): (r: Option<(Level, string)>)
    ensures r.Some? ==> Wrap(r.value.1, r.value.0) == t
  {
    if |t| < 34 || t[|t| - 7..] != SpanEnd then None
    else
      var body := t[27..|t| - 7];
      assert t == t[..27] + body + t[|t| - 7..];
      if t[..27] == SpanStart(Clear) then Some((Clear, body))
      else if t[..27] == SpanStart(Yellow) then Some((Yellow, body))
      else if t[..27] == SpanStart(Red) then Some((Red, body))
      else None
  }

  /** The level a coloured text is shown in, if it is one. */
  function LevelOf(t: string): Option<Level>
  {
    match Unwrap(t)
    case Some(p) => Some(p.0)
    case None => None
  }

  /** Every wrapped text reads back as the level and text it was made from. */
  lemma UnwrapWrap(s: string, l: Level)
    ensures Unwrap(Wrap(s, l)) == Some((l, s))
    ensures LevelOf(Wrap(s, l)) == Some(l)
  {
    var t := Wrap(s, l);
    assert t[..27] == SpanStart(l);
    assert t[27..|t| - 7] == s;
    assert t[|t| - 7..] == SpanEnd;
  }

  /**
   * Wrapping is injective: two wrapped texts are equal only when both the
   * texts and the levels are, so the level can always be told from the output.
   */
  lemma WrapInjective(s: string, l: Level, s': string, l': Level)
    ensures Wrap(s, l) == Wrap(s', l') <==> s == s' && l == l'
  {
    if Wrap(s, l) == Wrap(s', l') {
      UnwrapWrap(s, l);
      UnwrapWrap(s', l');
    }
  }

  /** A wrapped text contains a character other than the directives' only when `s` does. */
  lemma WrapChars(s: string, l: Level, c: char)
    requires c !in s && c !in "<span foreground=\"#EBDBB2FAC149FB5245\">/"
    ensures c !in Wrap(s, l)
  {
    var p := SpanStart(l);
    forall i | 0 <= i < |p| ensures p[i] != c {
      assert p[i] in "<span foreground=\"#EBDBB2FAC149FB5245\">/";
    }
    forall i | 0 <= i < |SpanEnd| ensures SpanEnd[i] != c {
      assert SpanEnd[i] in "<span foreground=\"#EBDBB2FAC149FB5245\">/";
    }
  }

  /**
   * `colorize`: wraps `s` in the directive of the level `f` assigns to `v`.
   */
  function Colorize<C>(s: string, v: C, f: C -> Level): (r: string)
    ensures Unwrap(r) == Some((f(v), s))
    ensures |r| == |s| + 34
  {
    UnwrapWrap(s, f(v));
    Wrap(s, f(v))
  }

  /**
   * The band classifier of `colorize_range`, on a comparand oriented so that
   * smaller is worse: strictly below `range.0` is Red, otherwise strictly
   * below `range.1` is Yellow, otherwise Clear. A value equal to a threshold
   * lands in the less severe band.
   */
  function Classify(v: real, range: (real, real)): (l: Level)
    ensures l == Red <==> v < range.0
    ensures l == Yellow <==> range.0 <= v < range.1
    ensures l == Clear <==> range.0 <= v && range.1 <= v
  {
    if v < range.0 then Red
    else if v < range.1 then Yellow
    else Clear
  }

  /** `colorize_range`: `colorize` with the band classifier. */
  function ColorizeRange(s: string, v: real, range: (real, real)): (r: string)
    ensures Unwrap(r) == Some((Classify(v, range), s))
  {
    Colorize(s, v, x => Classify(x, range))
  }

  /** With thresholds that are not ascending the Yellow band is empty. */
  lemma NoYellowWhenNotAscending(v: real, range: (real, real))
    requires range.0 >= range.1
    ensures Classify(v, range) != Yellow
    ensures LevelOf(ColorizeRange("", v, range)) != Some(Yellow)
  {
  }

  /**
   * The classifier is antitone in its comparand for every pair of
   * thresholds: a smaller comparand is never less alarming.
   */
  lemma ClassifyAntitone(v: real, w: real, range: (real, real))
    requires v <= w
    ensures Severity(Classify(v, range)) >= Severity(Classify(w, range))
  {
  }

  /**
   * The output of `colorize_range` depends on the value only through its
   * band: two values in the same band give the same text.
   */
  lemma ColorizeRangeByBand(s: string, v: real, w: real, range: (real, real))
    ensures ColorizeRange(s, v, range) == ColorizeRange(s, w, range)
        <==> Classify(v, range) == Classify(w, range)
  {
    var a, b := ColorizeRange(s, v, range), ColorizeRange(s, w, range);
    assert Unwrap(a) == Some((Classify(v, range), s));
    assert Unwrap(b) == Some((Classify(w, range), s));
  }
}

=== FILE: metrics.dfy ===
/**
 * The raw memory and disk inputs the metric formatters receive from the
 * operating system. Querying the system is not modelled: byte counts and
 * the disk list arrive as parameters.
 */
module Metrics {

  /** One GiB, the unit every byte count is divided by before display. */
  const GIB: real := 1073741824.0

  /** The same unit as a byte count. */
  const GibBytes: nat := 1073741824

  /** One entry of the disk list: available and total space in bytes. */
  datatype Disk = Disk(available: nat, total: nat)

  /** A byte count expressed in GiB. */
  function Gib(bytes: nat): (g: real)
    ensures g >= 0.0
    ensures g == 0.0 <==> bytes == 0
    ensures g * GIB == bytes as real
  {
    bytes as real / GIB
  }

  /**
   * The quotient of two byte counts taken in GiB does not depend on the
   * unit: it is the quotient of the raw byte counts.
   */
  lemma GibRatio(a: nat, b: nat)
    requires b > 0
    ensures Gib(a) / Gib(b) == a as real / b as real
  {
    var ga, gb := Gib(a), Gib(b);
    assert ga * GIB == a as real && gb * GIB == b as real;
    calc {
      (ga / gb) * (b as real);
      (ga / gb) * (gb * GIB);
      ga * GIB;
      a as real;
    }
  }
}

=== FILE: poll.dfy ===
/**
 * The timing gate of the polling loop. Clock readings are monotonic
 * instants in nanoseconds; the loop itself, its 10 ms sleep and the clock
 * are not modelled, only the decision taken at each poll.
 */
module Poll {

  const NanosPerMicro: nat := 1000
  const MicrosPerSecond: nat := 1_000_000
  const Second: nat := 1_000_000_000

  /** `elapsed().as_micros()`: saturates at zero and truncates to whole microseconds. */
  function ElapsedMicros(last: nat, now: nat): nat
  {
    if now >= last then (now - last) / NanosPerMicro else 0
  }

  /**
   * A poll emits unless fewer than 1 000 000 whole microseconds have passed
   * since `last`, that is exactly when a full second has passed: an interval
   * gate, not an alignment to wall-clock seconds.
   */
  predicate Due(last: nat, now: nat)
    ensures Due(last, now) <==> now >= last + Second
  {
    !(ElapsedMicros(last, now) < MicrosPerSecond)
  }

  /**
   * The initial `last_check`: two seconds before `start`, or the later
   * reading `fallback` when the instant cannot go back that far.
   */
  function InitialLastCheck(start: nat, fallback: nat): (last: nat)
    ensures start >= 2 * Second ==> last + 2 * Second == start
    ensures start < 2 * Second ==> last == fallback
  {
    if start >= 2 * Second then start - 2 * Second else fallback
  }

  /** Once the clock has run two seconds, the very first poll emits. */
  lemma FirstPollEmits(start: nat, fallback: nat, now: nat)
    requires start >= 2 * Second && now >= start
    ensures Due(InitialLastCheck(start, fallback), now)
  {
  }

  /**
   * One iteration of the loop: the reading the gate compares (`check`) and
   * the reading `last_check` is reset to after emitting (`reset`).
   */
  datatype Tick = Tick(check: nat, reset: nat)

  /** The readings never run backwards, starting no earlier than `last`. */
  predicate Monotone(last: nat, ticks: seq<Tick>)
  {
    && (forall i :: 0 <= i < |ticks| ==> ticks[i].check <= ticks[i].reset)
    && (forall i :: 0 <= i < |ticks| - 1 ==> ticks[i].reset <= ticks[i + 1].check)
    && (|ticks| > 0 ==> last <= ticks[0].check)
  }

  /** The `check` readings of the ticks that emit. */
  function EmitTimes(last: nat, ticks: seq<Tick>): (e: seq<nat>)
    ensures |e| <= |ticks|
    ensures forall k :: 0 <= k < |e| ==> exists i :: 0 <= i < |ticks| && e[k] == ticks[i].check
    decreases |ticks|
  {
    if |ticks| == 0 then []
    else if Due(last, ticks[0].check) then [ticks[0].check] + EmitTimes(ticks[0].reset, ticks[1..])
    else EmitTimes(last, ticks[1..])
  }

  lemma {:induction false} EmitTimesBounds(last: nat, ticks: seq<Tick>)
    requires Monotone(last, ticks)
    ensures forall k :: 0 <= k < |EmitTimes(last, ticks)| ==> EmitTimes(last, ticks)[k] >= last + Second
    decreases |ticks|
  {
    if |ticks| > 0 {
      var rest := ticks[1..];
      if Due(last, ticks[0].check) {
        if |rest| > 0 {
          assert Monotone(ticks[0].reset, rest);
        }
        EmitTimesBounds(ticks[0].reset, rest);
      } else {
        if |rest| > 0 {
          assert Monotone(last, rest);
        }
        EmitTimesBounds(last, rest);
      }
    }
  }

  /**
   * Emissions are at least a second apart: the first comes a full second
   * after the initial `last_check`, and each later one a full second after
   * the one before it.
   */
  lemma {:induction false} EmissionsSpaced(last: nat, ticks: seq<Tick>)
    requires Monotone(last, ticks)
    ensures var e := EmitTimes(last, ticks);
      && (|e| > 0 ==> e[0] >= last + Second)
      && (forall k :: 0 <= k < |e| - 1 ==> e[k + 1] >= e[k] + Second)
    decreases |ticks|
  {
    EmitTimesBounds(last, ticks);
    if |ticks| > 0 {
      var rest := ticks[1..];
      if Due(last, ticks[0].check) {
        if |rest| > 0 {
          assert Monotone(ticks[0].reset, rest);
        }
        EmissionsSpaced(ticks[0].reset, rest);
        EmitTimesBounds(ticks[0].reset, rest);
      } else {
        if |rest| > 0 {
          assert Monotone(last, rest);
        }
        EmissionsSpaced(last, rest);
      }
    }
  }

  /**
   * The gate prints nothing over a run exactly when no poll of the run is
   * due against the initial `last_check`: a due poll is never skipped while
   * nothing has been printed yet.
   */
  lemma {:induction false} NothingEmittedIff(last: nat, ticks: seq<Tick>)
    ensures |EmitTimes(last, ticks)| == 0 <==> forall i :: 0 <= i < |ticks| ==> !Due(last, ticks[i].check)
    decreases |ticks|
  {
    if |ticks| > 0 && !Due(last, ticks[0].check) {
      NothingEmittedIff(last, ticks[1..]);
      assert forall i :: 1 <= i < |ticks| ==> ticks[i] == ticks[1..][i - 1];
    }
  }

  /**
   * The first emission of a run is the reading of its first due poll:
   * polls before it are skipped, that poll is printed, and the gate goes
   * on from its reset reading over the polls after it. Together with
   * `NothingEmittedIff` this fixes the emissions of every run.
   */
  lemma {:induction false} FirstEmissionIsFirstDue(last: nat, ticks: seq<Tick>, i: nat)
    requires i < |ticks| && Due(last, ticks[i].check)
    requires forall j :: 0 <= j < i ==> !Due(last, ticks[j].check)
    ensures |EmitTimes(last, ticks)| > 0 && EmitTimes(last, ticks)[0] == ticks[i].check
    ensures EmitTimes(last, ticks) == [ticks[i].check] + EmitTimes(ticks[i].reset, ticks[i + 1..])
    decreases i
  {
    if i > 0 {
      FirstEmissionIsFirstDue(last, ticks[1..], i - 1);
      assert ticks[1..][i - 1 + 1..] == ticks[i + 1..];
    }
  }

  /**
   * Once the clock has run two seconds, the first poll of a run that starts
   * no earlier than `start` is printed, at its own reading.
   */
  lemma FirstPollPrinted(start: nat, fallback: nat, ticks: seq<Tick>)
    requires start >= 2 * Second && |ticks| > 0 && ticks[0].check >= start
    ensures var e := EmitTimes(InitialLastCheck(start, fallback), ticks);
      |e| > 0 && e[0] == ticks[0].check
  {
    FirstPollEmits(start, fallback, ticks[0].check);
    FirstEmissionIsFirstDue(InitialLastCheck(start, fallback), ticks, 0);
  }
}

=== FILE: record_metrics.dfy ===
/**
 * The record-building metric formatters: the same metrics routed through
 * `colorize_range` with oriented comparands (smaller is worse) and
 * packaged as status records with no colour field and Pango markup.
 */
module RecordMetrics {
  import opened Wrappers
  import opened Colors
  import opened Metrics
  import Records
  import TextMetrics

  /** A record as every formatter here builds it: no colour field, Pango markup. */
  function Item(name: string, text: string): (d: Records.StatusData)
    ensures d.name == name && d.fullText == text
    ensures d.color == None && d.markup == Records.Pango
  {
    Records.StatusData(name, None, Records.Pango, text)
  }

  /**
   * `memory_usage`: `1 - ratio` against `(0.2, 0.5)`, that is Red when more
   * than 80% of memory is used and Yellow when more than 50%.
   */
  function MemoryUsage(used: nat, total: nat, text: string): (d: Records.StatusData)
    requires total > 0
    ensures d.name == "memory_usage" && d.color == None && d.markup == Records.Pango
    ensures var ratio := Gib(used) / Gib(total);
      && (LevelOf(d.fullText) == Some(Red) <==> ratio > 0.8)
      && (LevelOf(d.fullText) == Some(Yellow) <==> 0.5 < ratio <= 0.8)
      && (LevelOf(d.fullText) == Some(Clear) <==> ratio <= 0.5)
    ensures Unwrap(d.fullText).Some? && Unwrap(d.fullText).value.1 == text
  {
    Item("memory_usage", ColorizeRange(text, 1.0 - Gib(used) / Gib(total), (0.2, 0.5)))
  }

  /** The two builds colour memory identically, for every input. */
  lemma MemoryBuildsAgree(used: nat, total: nat, text: string)
    requires total > 0
    ensures MemoryUsage(used, total, text).fullText == TextMetrics.MemoryUsage(used, total, text)
  {
    var d := MemoryUsage(used, total, text);
    var l := LevelOf(d.fullText).value;
    assert Unwrap(d.fullText) == Some((l, text));
    assert d.fullText == Wrap(text, l);
  }

  /**
   * `available_disk_total`: `None` for an empty disk list, otherwise the
   * first disk's available ratio against `(0.1, 0.3)`.
   */
  function AvailableDiskTotal(disks: seq<Disk>, text: string): (r: Option<Records.StatusData>)
    requires |disks| > 0 ==> disks[0].total > 0
    ensures r.None? <==> |disks| == 0
    ensures r.Some? ==>
      var d, ratio := r.value, Gib(disks[0].available) / Gib(disks[0].total);
      && d.name == "available_disk_total" && d.color == None && d.markup == Records.Pango
      && (LevelOf(d.fullText) == Some(Red) <==> ratio < 0.1)
      && (LevelOf(d.fullText) == Some(Yellow) <==> 0.1 <= ratio < 0.3)
      && (LevelOf(d.fullText) == Some(Clear) <==> 0.3 <= ratio)
      && Unwrap(d.fullText).Some? && Unwrap(d.fullText).value.1 == text
  {
    if |disks| == 0 then None
    else
      var ratio := Gib(disks[0].available) / Gib(disks[0].total);
      Some(Item("available_disk_total", ColorizeRange(text, ratio, (0.1, 0.3))))
  }

  /**
   * The corrected plain-text available segment and the record build's
   * available record show the same colour for every disk.
   */
  lemma AvailableDiskBuildsAgree(disks: seq<Disk>, text: string)
    requires |disks| > 0 && disks[0].total > 0
    ensures LevelOf(AvailableDiskTotal(disks, text).value.fullText)
         == LevelOf(TextMetrics.AvailableDiskTotalIntended(disks, text).value)
  {
    UnwrapWrap(text, Red);
    UnwrapWrap(text, Yellow);
    UnwrapWrap(text, Clear);
  }

  /**
   * `disk_usage`, as written: the comparand is `100 - available / total`
   * against `(90, 50)`, and the record reuses the name
   * `available_disk_total`.
   */
  function DiskUsage(disks: seq<Disk>, text: string): (r: Option<Records.StatusData>)
    requires |disks| > 0 ==> disks[0].total > 0
    ensures r.None? <==> |disks| == 0
    ensures r.Some? ==>
      var d, ratio := r.value, Gib(disks[0].available) / Gib(disks[0].total);
      && d.name == "available_disk_total" && d.color == None && d.markup == Records.Pango
      && (LevelOf(d.fullText) == Some(Red) <==> 100.0 - ratio < 90.0)
      && LevelOf(d.fullText) != Some(Yellow)
      && Unwrap(d.fullText).Some? && Unwrap(d.fullText).value.1 == text
  {
    if |disks| == 0 then None
    else
      var ratio := Gib(disks[0].available) / Gib(disks[0].total);
      Some(Item("available_disk_total", ColorizeRange(text, 100.0 - ratio, (90.0, 50.0))))
  }

  /**
   * For every real disk (available space no more than the total) the
   * comparand of `disk_usage` is at least 99, so the segment is always Clear.
   */
  lemma DiskUsageNeverAlarms(disks: seq<Disk>, text: string)
    requires |disks| > 0 && 0 < disks[0].total && disks[0].available <= disks[0].total
    ensures DiskUsage(disks, text).Some?
    ensures LevelOf(DiskUsage(disks, text).value.fullText) == Some(Clear)
  {
    var a, t := Gib(disks[0].available), Gib(disks[0].total);
    assert (a / t) * t == a;
  }

  /** Both disk records carry the same name, so they cannot be told apart by it. */
  lemma DiskNamesCollide(disks: seq<Disk>, text: string, text': string)
    requires |disks| > 0 && disks[0].total > 0
    ensures AvailableDiskTotal(disks, text).value.name == DiskUsage(disks, text').value.name
  {
  }

  /** A disk with 95% of its space used is shown Clear by `disk_usage`. */
  lemma DiskUsageCounterexample()
    ensures LevelOf(DiskUsage([Disk(5 * GibBytes, 100 * GibBytes)], "5.0%").value.fullText) == Some(Clear)
    ensures LevelOf(DiskUsageIntended([Disk(5 * GibBytes, 100 * GibBytes)], "95.0%").value.fullText) == Some(Red)
  {
    DiskUsageNeverAlarms([Disk(5 * GibBytes, 100 * GibBytes)], "5.0%");
    GibRatio(5 * GibBytes, 100 * GibBytes);
  }

  /**
   * `disk_usage` as its doc comment describes it: named `disk_usage`, the
   * used percentage `100 * (1 - available / total)`, Red above 90, Yellow
   * above 70.
   */
  function DiskUsageIntended(disks: seq<Disk>, text: string): (r: Option<Records.StatusData>)
    requires |disks| > 0 ==> disks[0].total > 0
    ensures r.None? <==> |disks| == 0
    ensures r.Some? ==>
      var d, used := r.value, 100.0 * (1.0 - Gib(disks[0].available) / Gib(disks[0].total));
      && d.name == "disk_usage" && d.color == None && d.markup == Records.Pango
      && (LevelOf(d.fullText) == Some(Red) <==> used > 90.0)
      && (LevelOf(d.fullText) == Some(Yellow) <==> 70.0 < used <= 90.0)
      && (LevelOf(d.fullText) == Some(Clear) <==> used <= 70.0)
      && Unwrap(d.fullText).Some? && Unwrap(d.fullText).value.1 == text
  {
    if |disks| == 0 then None
    else
      var used := 100.0 * (1.0 - Gib(disks[0].available) / Gib(disks[0].total));
      Some(Item("disk_usage", ColorizeRange(text, 100.0 - used, (10.0, 30.0))))
  }

  /** The corrected record colours disk usage exactly as the plain-text build does. */
  lemma DiskUsageIntendedAgrees(disks: seq<Disk>, text: string)
    requires |disks| > 0 && disks[0].total > 0
    ensures LevelOf(DiskUsageIntended(disks, text).value.fullText)
         == LevelOf(TextMetrics.DiskUsage(disks, text).value)
  {
    UnwrapWrap(text, Red);
    UnwrapWrap(text, Yellow);
    UnwrapWrap(text, Clear);
  }

  /**
   * `cpu_usage`, as written: the CPU percentage itself against `(0.1, 0.3)`,
   * so an idle processor is Red and a busy one Clear.
   */
  function CpuUsage(usage: real, text: string): (d: Records.StatusData)
    ensures d.name == "cpu_usage" && d.color == None && d.markup == Records.Pango
    ensures LevelOf(d.fullText) == Some(Red) <==> usage < 0.1
    ensures LevelOf(d.fullText) == Some(Yellow) <==> 0.1 <= usage < 0.3
    ensures LevelOf(d.fullText) == Some(Clear) <==> 0.3 <= usage
    ensures Unwrap(d.fullText).Some? && Unwrap(d.fullText).value.1 == text
  {
    Item("cpu_usage", ColorizeRange(text, usage, (0.1, 0.3)))
  }

  /** The two builds disagree on the CPU colour: idle is Red here and Clear there. */
  lemma CpuCounterexample()
    ensures LevelOf(CpuUsage(0.0, " 0.0%").fullText) == Some(Red)
    ensures LevelOf(TextMetrics.CpuUsage(0.0, " 0.0%")) == Some(Clear)
    ensures LevelOf(CpuUsageIntended(0.0, " 0.0%").fullText) == Some(Clear)
  {
    UnwrapWrap(" 0.0%", Clear);
  }

  /**
   * `cpu_usage` as its doc comment describes it: `100 - usage` against
   * `(20, 50)`, that is Red above 80 and Yellow above 50.
   */
  function CpuUsageIntended(usage: real, text: string): (d: Records.StatusData)
    ensures d.name == "cpu_usage" && d.color == None && d.markup == Records.Pango
    ensures LevelOf(d.fullText) == Some(Red) <==> usage > 80.0
    ensures LevelOf(d.fullText) == Some(Yellow) <==> 50.0 < usage <= 80.0
    ensures LevelOf(d.fullText) == Some(Clear) <==> usage <= 50.0
    ensures Unwrap(d.fullText).Some? && Unwrap(d.fullText).value.1 == text
  {
    Item("cpu_usage", ColorizeRange(text, 100.0 - usage, (20.0, 50.0)))
  }

  /** The corrected CPU record colours exactly as the plain-text build does. */
  lemma CpuUsageIntendedAgrees(usage: real, text: string)
    ensures CpuUsageIntended(usage, text).fullText == TextMetrics.CpuUsage(usage, text)
  {
    var d := CpuUsageIntended(usage, text);
    var l := LevelOf(d.fullText).value;
    assert Unwrap(d.fullText) == Some((l, text));
    assert d.fullText == Wrap(text, l);
  }
}

=== FILE: records.dfy ===
/**
 * The status record of the JSON build: `StatusData`, its merge and
 * emptiness test, and the shape serde gives it, modelled as an abstract JSON
 * value (byte-level encoding and string escaping are not modelled).
 */
module Records {
  import W = Wrappers

  /** Whether `full_text` holds Pango markup; serialised as `"none"` / `"pango"`. */
  datatype Markup = None | Pango

  /** One display segment. */
  datatype StatusData = StatusData(name: string, color: W.Option<string>, markup: Markup, fullText: string)
  {
    /**
     * `attach_right`: the names joined by `_` and the texts joined by
     * `separator`; colour and markup are this record's.
     */
    function AttachRight(right: StatusData, separator: string): (r: StatusData)
      ensures |r.name| == |name| + 1 + |right.name|
      ensures r.name[..|name|] == name && r.name[|name|] == '_' && r.name[|name| + 1..] == right.name
      ensures |r.fullText| == |fullText| + |separator| + |right.fullText|
      ensures r.fullText[..|fullText|] == fullText
      ensures r.fullText[|fullText|..|fullText| + |separator|] == separator
      ensures r.fullText[|fullText| + |separator|..] == right.fullText
      ensures r.color == color && r.markup == markup
    {
      var n := name + "_" + right.name;
      var t := fullText + separator + right.fullText;
      assert n[..|name|] == name && n[|name| + 1..] == right.name;
      assert t[..|fullText|] == fullText;
      assert t[|fullText|..|fullText| + |separator|] == separator;
      assert t[|fullText| + |separator|..] == right.fullText;
      StatusData(n, color, markup, t)
    }

    /**
     * `is_empty`: both the name and the text are empty, so an empty record
     * differs from the default at most in colour and markup.
     */
    predicate IsEmpty()
      ensures IsEmpty() <==> this == StatusData("", color, markup, "")
    {
      name == [] && fullText == []
    }
  }

  /** `StatusData::default()`. */
  function Default(): (d: StatusData)
    ensures d.IsEmpty()
    ensures d.color == W.None && d.markup == Pango
  {
    StatusData("", W.None, Pango, "")
  }

  /** A record is empty exactly when both fields are; one empty field is not enough. */
  lemma IsEmptyExactly(d: StatusData)
    ensures d.IsEmpty() <==> |d.name| == 0 && |d.fullText| == 0
    ensures d.name == [] && d.fullText != [] ==> !d.IsEmpty()
    ensures d.name != [] && d.fullText == [] ==> !d.IsEmpty()
  {
  }

  /** A merged record is never empty: its name holds at least the `_`. */
  lemma AttachRightNotEmpty(a: StatusData, b: StatusData, separator: string)
    ensures !a.AttachRight(b, separator).IsEmpty()
  {
  }

  /** Two successive merges with one separator group either way. */
  lemma AttachRightAssociative(a: StatusData, b: StatusData, c: StatusData, separator: string)
    ensures a.AttachRight(b, separator).AttachRight(c, separator)
         == a.AttachRight(b.AttachRight(c, separator), separator)
  {
    var l := a.AttachRight(b, separator).AttachRight(c, separator);
    var r := a.AttachRight(b.AttachRight(c, separator), separator);
    assert l.name == a.name + "_" + b.name + "_" + c.name == r.name;
    assert l.fullText == a.fullText + separator + b.fullText + separator + c.fullText == r.fullText;
  }

  /** The merge is not commutative. */
  lemma AttachRightNotCommutative()
    ensures exists a: StatusData, b: StatusData ::
      a.AttachRight(b, " ") != b.AttachRight(a, " ")
  {
    var a := StatusData("a", W.None, Pango, "x");
    var b := StatusData("b", W.None, Pango, "y");
    assert a.AttachRight(b, " ").name[0] == 'a';
    assert b.AttachRight(a, " ").name[0] == 'b';
  }

  /** `Status`: the records of one output line, in display order. */
  datatype Status = Status(data: seq<StatusData>)

  /** `Status::new()`. */
  function NewStatus(): (s: Status)
    ensures |s.data| == 0
  {
    Status([])
  }

  /** An abstract JSON value: key order is not significant, so objects are maps. */
  datatype Json = JString(str: string) | JArray(items: seq<Json>) | JObject(fields: map<string, Json>)

  /** The serialised name of a markup kind. */
  function MarkupName(m: Markup): (s: string)
    ensures s == "none" || s == "pango"
  {
    match m
    case None => "none"
    case Pango => "pango"
  }

  /** Reads a markup kind back from its serialised name. */
  function ParseMarkup(s: string): (r: W.Option<Markup>)
    ensures r.Some? <==> s == "none" || s == "pango"
    ensures r.Some? ==> MarkupName(r.value) == s
  {
    if s == "none" then W.Some(None)
    else if s == "pango" then W.Some(Pango)
    else W.None
  }

  /**
   * The object serde writes for a record: `color` is skipped when absent,
   * the other three keys are always present.
   */
  function ToJson(d: StatusData): (j: Json)
    ensures j.JObject?
    ensures "color" in j.fields <==> d.color.Some?
    ensures j.fields.Keys == {"name", "markup", "full_text"} + (if d.color.Some? then {"color"} else {})
    ensures j.fields["name"] == JString(d.name)
    ensures j.fields["full_text"] == JString(d.fullText)
    ensures j.fields["markup"] == JString(MarkupName(d.markup))
    ensures d.color.Some? ==> j.fields["color"] == JString(d.color.value)
  {
    var base := map["name" := JString(d.name), "markup" := JString(MarkupName(d.markup)),
                    "full_text" := JString(d.fullText)];
    match d.color
    case Some(c) => JObject(base["color" := JString(c)])
    case None => JObject(base)
  }

  /** Reads a record back from a JSON value; `None` when it is not one. */
  function FromJson(j: Json): (r: W.Option<StatusData>)
  {
    if !j.JObject? then W.None
    else
      var f := j.fields;
      if "name" !in f || "markup" !in f || "full_text" !in f then W.None
      else if !f["name"].JString? || !f["markup"].JString? || !f["full_text"].JString? then W.None
      else if "color" in f && !f["color"].JString? then W.None
      else
        match ParseMarkup(f["markup"].str)
        case None => W.None
        case Some(m) =>
          var c := if "color" in f then W.Some(f["color"].str) else W.None;
          W.Some(StatusData(f["name"].str, c, m, f["full_text"].str))
  }

  /** Serialisation loses nothing: every record reads back from its JSON. */
  lemma FromToJson(d: StatusData)
    ensures FromJson(ToJson(d)) == W.Some(d)
  {
  }

  /** Serialisation is injective on records. */
  lemma ToJsonInjective(d: StatusData, e: StatusData)
    ensures ToJson(d) == ToJson(e) <==> d == e
  {
    if ToJson(d) == ToJson(e) {
      FromToJson(d);
      FromToJson(e);
    }
  }

  /** The serialised records, in order. */
  function DataJson(ds: seq<StatusData>): (js: seq<Json>)
    ensures |js| == |ds|
    ensures forall i :: 0 <= i < |ds| ==> js[i] == ToJson(ds[i])
  {
    if |ds| == 0 then [] else [ToJson(ds[0])] + DataJson(ds[1..])
  }

  /** `Status` is transparent: it serialises as the bare array of its records. */
  function StatusJson(s: Status): (j: Json)
    ensures j.JArray? && |j.items| == |s.data|
    ensures forall i :: 0 <= i < |s.data| ==> j.items[i] == ToJson(s.data[i])
  {
    JArray(DataJson(s.data))
  }

  /** Reads a sequence of serialised records back. */
  function DataFromJson(js: seq<Json>): W.Option<seq<StatusData>>
  {
    if |js| == 0 then W.Some([])
    else
      match FromJson(js[0])
      case None => W.None
      case Some(d) =>
        match DataFromJson(js[1..])
        case None => W.None
        case Some(rest) => W.Some([d] + rest)
  }

  /** Reads a `Status` back from its bare array. */
  function StatusFromJson(j: Json): W.Option<Status>
  {
    if !j.JArray? then W.None
    else
      match DataFromJson(j.items)
      case None => W.None
      case Some(ds) => W.Some(Status(ds))
  }

  lemma {:induction false} DataFromDataJson(ds: seq<StatusData>)
    ensures DataFromJson(DataJson(ds)) == W.Some(ds)
  {
    if |ds| > 0 {
      var js := DataJson(ds);
      FromToJson(ds[0]);
      assert js[1..] == DataJson(ds[1..]);
      DataFromDataJson(ds[1..]);
      assert [ds[0]] + ds[1..] == ds;
    }
  }

  /** A whole `Status` reads back from its serialised array. */
  lemma StatusRoundTrip(s: Status)
    ensures StatusFromJson(StatusJson(s)) == W.Some(s)
    ensures s == NewStatus() ==> StatusJson(s) == JArray([])
  {
    DataFromDataJson(s.data);
  }
}

=== FILE: text_metrics.dfy ===
/**
 * The plain-text metric formatters: each metric's pre-formatted text
 * wrapped in the colour a closure with strict `>` thresholds assigns to the
 * raw comparand (higher is worse). The Display formatting of the numbers
 * is not modelled: the text arrives as a parameter.
 */
module TextMetrics {
  import opened Wrappers
  import opened Colors
  import opened Metrics

  /**
   * The shape of every closure in this build: above `redAbove` is Red,
   * otherwise above `yellowAbove` is Yellow, otherwise Clear.
   */
  function Above(x: real, yellowAbove: real, redAbove: real): (l: Level)
    ensures l == Red <==> x > redAbove
    ensures l == Yellow <==> yellowAbove < x <= redAbove
    ensures l == Clear <==> x <= yellowAbove && x <= redAbove
  {
    if x > redAbove then Red
    else if x > yellowAbove then Yellow
    else Clear
  }

  /**
   * A `>` closure is the band classifier applied to the negated comparand
   * with negated thresholds, so both builds share one classifier.
   */
  lemma AboveIsClassify(x: real, yellowAbove: real, redAbove: real)
    ensures Above(x, yellowAbove, redAbove) == Classify(-x, (-redAbove, -yellowAbove))
  {
  }

  /**
   * `memory_usage`: the used/total ratio, Red above 0.8, Yellow above 0.5.
   */
  function MemoryUsage(used: nat, total: nat, text: string): (r: string)
    requires total > 0
    ensures var ratio := Gib(used) / Gib(total);
      && (r == Wrap(text, Red) <==> ratio > 0.8)
      && (r == Wrap(text, Yellow) <==> 0.5 < ratio <= 0.8)
      && (r == Wrap(text, Clear) <==> ratio <= 0.5)
  {
    var r := Colorize(text, Gib(used) / Gib(total), x => Above(x, 0.5, 0.8));
    WrapInjective(text, Red, text, LevelOf(r).value);
    WrapInjective(text, Yellow, text, LevelOf(r).value);
    WrapInjective(text, Clear, text, LevelOf(r).value);
    r
  }

  /** The closure both disk formatters use: Red above 0.9, Yellow above 0.7. */
  function DiskLevel(x: real): Level
  {
    Above(x, 0.7, 0.9)
  }

  /**
   * `available_disk_total`, as written: `None` for an empty disk list,
   * otherwise the first disk's available space coloured by
   * `1 - total / available`.
   */
  function AvailableDiskTotal(disks: seq<Disk>, text: string): (r: Option<string>)
    requires |disks| > 0 ==> disks[0].available > 0
    ensures r.None? <==> |disks| == 0
    ensures r.Some? ==>
      var x := 1.0 - Gib(disks[0].total) / Gib(disks[0].available);
      && (r.value == Wrap(text, Red) <==> x > 0.9)
      && (r.value == Wrap(text, Yellow) <==> 0.7 < x <= 0.9)
      && (r.value == Wrap(text, Clear) <==> x <= 0.7)
  {
    if |disks| == 0 then None
    else
      var d := disks[0];
      var r := Colorize(text, 1.0 - Gib(d.total) / Gib(d.available), DiskLevel);
      WrapInjective(text, Red, text, LevelOf(r).value);
      WrapInjective(text, Yellow, text, LevelOf(r).value);
      WrapInjective(text, Clear, text, LevelOf(r).value);
      Some(r)
  }

  /** Dividing a total by no more than itself gives at least one. */
  lemma QuotientAtLeastOne(a: real, b: real)
    requires 0.0 < b <= a
    ensures a / b >= 1.0
  {
    assert (a / b) * b == a;
  }

  /**
   * The comparand of `available_disk_total` is inverted: for any real disk
   * (some space available, no more than the total) it is at most zero, so
   * the segment is always Clear, whatever the disk usage.
   */
  lemma AvailableDiskNeverAlarms(disks: seq<Disk>, text: string)
    requires |disks| > 0 && 0 < disks[0].available <= disks[0].total
    ensures AvailableDiskTotal(disks, text) == Some(Wrap(text, Clear))
  {
    QuotientAtLeastOne(Gib(disks[0].total), Gib(disks[0].available));
  }

  /** A disk with 95% of its space used shows no alarm in this segment. */
  lemma AvailableDiskCounterexample()
    ensures AvailableDiskTotal([Disk(5 * GibBytes, 100 * GibBytes)], "5.0 GiB") == Some(Wrap("5.0 GiB", Clear))
    ensures DiskUsage([Disk(5 * GibBytes, 100 * GibBytes)], "95.0%") == Some(Wrap("95.0%", Red))
  {
    AvailableDiskNeverAlarms([Disk(5 * GibBytes, 100 * GibBytes)], "5.0 GiB");
    GibRatio(5 * GibBytes, 100 * GibBytes);
  }

  /**
   * `disk_usage`: `None` for an empty disk list, otherwise the first disk's
   * used ratio `1 - available / total`, Red above 0.9, Yellow above 0.7.
   */
  function DiskUsage(disks: seq<Disk>, text: string): (r: Option<string>)
    requires |disks| > 0 ==> disks[0].total > 0
    ensures r.None? <==> |disks| == 0
    ensures r.Some? ==>
      var used := 1.0 - Gib(disks[0].available) / Gib(disks[0].total);
      && (r.value == Wrap(text, Red) <==> used > 0.9)
      && (r.value == Wrap(text, Yellow) <==> 0.7 < used <= 0.9)
      && (r.value == Wrap(text, Clear) <==> used <= 0.7)
  {
    if |disks| == 0 then None
    else
      var d := disks[0];
      var r := Colorize(text, 1.0 - Gib(d.available) / Gib(d.total), DiskLevel);
      WrapInjective(text, Red, text, LevelOf(r).value);
      WrapInjective(text, Yellow, text, LevelOf(r).value);
      WrapInjective(text, Clear, text, LevelOf(r).value);
      Some(r)
  }

  /**
   * `available_disk_total` with the ratio its doc comment describes,
   * `1 - available / total`: it then shows the colour of `disk_usage`, that
   * is Red when less than 10% of the disk is available and Yellow when less
   * than 30%.
   */
  function AvailableDiskTotalIntended(disks: seq<Disk>, text: string): (r: Option<string>)
    requires |disks| > 0 ==> disks[0].total > 0
    ensures r.None? <==> |disks| == 0
    ensures r.Some? ==>
      var share := Gib(disks[0].available) / Gib(disks[0].total);
      && (r.value == Wrap(text, Red) <==> share < 0.1)
      && (r.value == Wrap(text, Yellow) <==> 0.1 <= share < 0.3)
      && (r.value == Wrap(text, Clear) <==> 0.3 <= share)
  {
    DiskUsage(disks, text)
  }

  /**
   * Only the first disk is consulted: disks after it never change either
   * disk segment.
   */
  lemma OnlyFirstDisk(d: Disk, rest: seq<Disk>, rest': seq<Disk>, text: string)
    requires d.available > 0 && d.total > 0
    ensures AvailableDiskTotal([d] + rest, text) == AvailableDiskTotal([d] + rest', text)
    ensures DiskUsage([d] + rest, text) == DiskUsage([d] + rest', text)
  {
    assert ([d] + rest)[0] == d == ([d] + rest')[0];
  }

  /**
   * `cpu_usage`: the global CPU percentage, Red above 80, Yellow above 50;
   * exactly 50 is Clear and exactly 80 is Yellow.
   */
  function CpuUsage(usage: real, text: string): (r: string)
    ensures r == Wrap(text, Red) <==> usage > 80.0
    ensures r == Wrap(text, Yellow) <==> 50.0 < usage <= 80.0
    ensures r == Wrap(text, Clear) <==> usage <= 50.0
  {
    var r := Colorize(text, usage, x => Above(x, 50.0, 80.0));
    WrapInjective(text, Red, text, LevelOf(r).value);
    WrapInjective(text, Yellow, text, LevelOf(r).value);
    WrapInjective(text, Clear, text, LevelOf(r).value);
    r
  }

  /**
   * Values on a threshold fall in the less severe band: memory exactly half
   * used is Clear and exactly 80% used is Yellow; CPU at exactly 50 is Clear
   * and at 85.3 Red.
   */
  lemma ThresholdExamples(text: string)
    ensures MemoryUsage(8, 16, text) == Wrap(text, Clear)
    ensures MemoryUsage(4, 5, text) == Wrap(text, Yellow)
    ensures CpuUsage(50.0, text) == Wrap(text, Clear)
    ensures CpuUsage(80.0, text) == Wrap(text, Yellow)
    ensures CpuUsage(85.3, text) == Wrap(text, Red)
  {
    GibRatio(8, 16);
    GibRatio(4, 5);
  }
}

=== FILE: time_records.dfy ===
/**
 * The date and time records: the local instant's components rendered with
 * the format strings `%H:%M:%S` and `%Y-%m-%d`. Clock and timezone
 * resolution are not modelled: the components arrive as parameters.
 */
module TimeRecords {
  import opened Wrappers
  import Records

  /** The components of a local date and time, as the clock library holds them. */
  datatype LocalDateTime = LocalDateTime(year: int, month: int, day: int, hour: int, minute: int, second: int)
  {
    /**
     * The ranges the calendar types guarantee; the year is limited to the
     * four-digit years, the only ones `%Y` prints without a sign.
     */
    predicate Valid()
    {
      && 0 <= year <= 9999 && 1 <= month <= 12 && 1 <= day <= 31
      && 0 <= hour < 24 && 0 <= minute < 60 && 0 <= second < 60
    }
  }

  function Pow10(n: nat): (p: nat)
    ensures p >= 1
  {
    if n == 0 then 1 else 10 * Pow10(n - 1)
  }

  predicate IsDigit(c: char)
  {
    '0' <= c <= '9'
  }

  /** The decimal value of a string of digits, most significant first. */
  function DigitsValue(s: string): nat
  {
    if |s| == 0 then 0
    else
      var c := s[|s| - 1];
      10 * DigitsValue(s[..|s| - 1]) + (if IsDigit(c) then (c - '0') as nat else 0)
  }

  /** `n` written in exactly `width` decimal digits, zero-padded on the left. */
  function Pad(n: nat, width: nat): (s: string)
    requires n < Pow10(width)
    ensures |s| == width
    ensures forall i :: 0 <= i < |s| ==> IsDigit(s[i])
    ensures DigitsValue(s) == n
  {
    if width == 0 then ""
    else
      var init := Pad(n / 10, width - 1);
      var s := init + ['0' + (n % 10) as char];
      assert s[..|s| - 1] == init;
      s
  }

  /** The text `%H:%M:%S` gives: 24-hour time, each field in two digits. */
  function TimeText(t: LocalDateTime): (s: string)
    requires t.Valid()
    ensures |s| == 8 && s[2] == ':' && s[5] == ':'
    ensures forall i :: 0 <= i < 8 && i != 2 && i != 5 ==> IsDigit(s[i])
    ensures DigitsValue(s[0..2]) == t.hour
    ensures DigitsValue(s[3..5]) == t.minute
    ensures DigitsValue(s[6..8]) == t.second
  {
    var h, m, c := Pad(t.hour, 2), Pad(t.minute, 2), Pad(t.second, 2);
    var s := h + ":" + m + ":" + c;
    assert s[0..2] == h && s[3..5] == m && s[6..8] == c;
    s
  }

  /** The text `%Y-%m-%d` gives: a four-digit year, then month and day in two digits. */
  function DateText(t: LocalDateTime): (s: string)
    requires t.Valid()
    ensures |s| == 10 && s[4] == '-' && s[7] == '-'
    ensures forall i :: 0 <= i < 10 && i != 4 && i != 7 ==> IsDigit(s[i])
    ensures DigitsValue(s[0..4]) == t.year
    ensures DigitsValue(s[5..7]) == t.month
    ensures DigitsValue(s[8..10]) == t.day
  {
    var y, m, d := Pad(t.year, 4), Pad(t.month, 2), Pad(t.day, 2);
    var s := y + "-" + m + "-" + d;
    assert s[0..4] == y && s[5..7] == m && s[8..10] == d;
    s
  }

  /** Two valid instants render to the same time text only when hour, minute and second agree. */
  lemma TimeTextInjective(t: LocalDateTime, u: LocalDateTime)
    requires t.Valid() && u.Valid()
    ensures TimeText(t) == TimeText(u) <==> t.hour == u.hour && t.minute == u.minute && t.second == u.second
  {
  }

  /** Two valid instants render to the same date text only when year, month and day agree. */
  lemma DateTextInjective(t: LocalDateTime, u: LocalDateTime)
    requires t.Valid() && u.Valid()
    ensures DateText(t) == DateText(u) <==> t.year == u.year && t.month == u.month && t.day == u.day
  {
  }

  /** `time_local`. */
  function TimeLocal(t: LocalDateTime): (d: Records.StatusData)
    requires t.Valid()
    ensures d.name == "time_local" && d.color == None && d.markup == Records.Pango
    ensures d.fullText == TimeText(t)
  {
    Records.StatusData("time_local", None, Records.Pango, TimeText(t))
  }

  /** `date_local`. */
  function DateLocal(t: LocalDateTime): (d: Records.StatusData)
    requires t.Valid()
    ensures d.name == "date_local" && d.color == None && d.markup == Records.Pango
    ensures d.fullText == DateText(t)
  {
    Records.StatusData("date_local", None, Records.Pango, DateText(t))
  }

  /** `datetime_local`: date and time of the same instant joined by one space. */
  function DatetimeLocal(t: LocalDateTime): (d: Records.StatusData)
    requires t.Valid()
    ensures d.name == "datetime_local" && d.color == None && d.markup == Records.Pango
    ensures d.fullText == DateLocal(t).fullText + " " + TimeLocal(t).fullText
    ensures |d.fullText| == 19 && d.fullText[10] == ' '
  {
    Records.StatusData("datetime_local", None, Records.Pango, DateText(t) + " " + TimeText(t))
  }

  /** The combined text splits back into the date and the time of the instant. */
  lemma DatetimeSplits(t: LocalDateTime)
    requires t.Valid()
    ensures DatetimeLocal(t).fullText[..10] == DateText(t)
    ensures DatetimeLocal(t).fullText[11..] == TimeText(t)
  {
    var s := DatetimeLocal(t).fullText;
    assert s == DateText(t) + " " + TimeText(t);
  }
}

=== FILE: wrappers.dfy ===
/** The optional value used wherever the program returns `Option<T>`. */
module Wrappers {

  datatype Option<+T> = None | Some(value: T) {

    /** The contained value, or `default` when there is none (Rust's `unwrap_or`). */
    function UnwrapOr(default: T): (r: T)
      ensures Some? ==> r == value
      ensures None? ==> r == default
    {
      match this
      case Some(v) => v
      case None => default
    }
  }
}
